=== FILE: README.md ===
# Admin dashboard: user and role handling

This project is a Dafny model of the data handling in an admin dashboard for
users and roles. The dashboard is a React single-page application. The model
covers what its three components do with data; markup, toasts and storage are
not modelled. Each event handler is a pure function from the old state to the
new one.

- **User table** (`src/components/UserManagement/UserTable.js`):
  - the table's *view* — search on name, e-mail and role (case-insensitive),
    then the status select (all / active / inactive), then an optional sort
    on the clicked column with JavaScript's stable `Array.prototype.sort`;
  - the sort-state transition `requestSort`;
  - the save handler (edit an existing user or create one) and the delete
    handler.
- **User form** (`src/components/UserManagement/UserForm.js`):
  - its initial field values;
  - its submit check: all fields filled, then the e-mail pattern
    `^[^\s@]+@[^\s@]+\.[^\s@]+$`.
- **Role table and role form** (`src/components/RoleManagement/RoleTable.js`):
  - the save handler, which refuses a role without a name or without a
    permission, then edits or appends; the delete handler;
  - the form's permission checkboxes and its submit check.

Modules, one per concern:

| module | file | contents |
|---|---|---|
| `Basics` | basics.dfy | `Option`, `Submission` (the outcome of a form submit: refused with a message, or handed to `onSave`), and `MapSeq`/`Filter` (JavaScript's `map`/`filter`) with their contracts |
| `Text` | text.dfy | ASCII `toLowerCase`, `String.prototype.includes`, JavaScript's `<` on strings as a lexicographic order (proved a strict total order), and the character class `\s` |
| `Email` | email.dfy | the e-mail pattern read three ways — literally, as the left-to-right check, and as a plain description — proved to agree |
| `Users` | users.dfy | users, and the edit / create / delete / save of the user list |
| `UserView` | user_view.dfy | `requestSort`, the search and status stages, the comparator, a stable insertion sort, and the view pipeline with its ordering, stability and uniqueness theorems |
| `UserForm` | user_form.dfy | the user form's initial values and submit check |
| `Roles` | roles.dfy | roles, the role table's save and delete, the role form's toggle, initial values and submit |
| `UserPanel` | user_panel.dfy | the user table's form state (which user is being edited), for the finding below |
| `Scenario` | scenario.dfy | a worked example: the role "Editor" and the user Jane Doe created, searched, filtered and the role deleted |

Ids come from `Date.now()` in the source. Here every creating operation takes
the id as a parameter. The lemmas that keep ids unique require this id to be
new to the list; the operations themselves do not, just as the source does
not check.

The code behaves as follows, and the model follows it:

- Editing or deleting an id that no entry carries leaves the list as it is;
  there is no not-found error. The two `EditAbsentIdKeepsList` and the two
  `DeleteAbsentIdKeepsList` lemmas state this.
- A role's permissions are a list in click order, not a set. A permission is
  appended when ticked and removed when unticked.
- Role names need not be unique.
- A user's role is a plain string. Deleting a role does not touch the users
  that name it; `Roles.DeleteRole` does not even see the user list.

## Model

| member | source | states |
|---|---|---|
| `Users.EditUser` | src/components/UserManagement/UserTable.js:29-33 | the list keeps its length and its ids; every entry with the edited id takes the submitted name, e-mail, role and active flag and keeps its id; every other entry is unchanged |
| `Users.CreateUser` | src/components/UserManagement/UserTable.js:35 | exactly one user is appended, with the submitted fields and the supplied id; the existing users stay as they were, in front |
| `Users.SaveUser` | src/components/UserManagement/UserTable.js:28-38 | while a user is being edited, a save keeps the length and ids, every entry with the edited id becomes the submitted fields under its own id, and every other entry is unchanged; otherwise it appends the new user under the supplied id |
| `Users.DeleteUser` | src/components/UserManagement/UserTable.js:40-42 | no remaining user has the id; every user with another id keeps its multiplicity; the result is a subsequence of the list, so order is kept |
| `Users.DeleteAbsentIdKeepsList` | src/components/UserManagement/UserTable.js:40-42 | deleting an id nobody carries returns the list unchanged |
| `Users.EditAbsentIdKeepsList` | src/components/UserManagement/UserTable.js:29-33 | editing an id nobody carries returns the list unchanged |
| `Users.DeleteIdempotent` | src/components/UserManagement/UserTable.js:41 | deleting the same id twice is the same as deleting it once |
| `Users.CreateKeepsIdsUnique` | src/components/UserManagement/UserTable.js:35 | with a new id, ids stay unique and the new user is the only one carrying it |
| `Users.DeleteKeepsIdsUnique` | src/components/UserManagement/UserTable.js:41 | a delete never breaks id uniqueness |
| `Users.SaveKeepsIdsUnique` | src/components/UserManagement/UserTable.js:28-38 | a save, edit or create, keeps ids unique when the offered id is new |
| `UserView.RequestSort` | src/components/UserManagement/UserTable.js:45-55 | the clicked column becomes the sort key; the direction is descending exactly when the previous state was that column ascending, otherwise ascending |
| `UserView.RequestSortTwice` | src/components/UserManagement/UserTable.js:45-55 | a second click on the same column always flips the direction; from ascending, two clicks return to ascending |
| `UserView.StatusFilterMeaning` | src/components/UserManagement/UserTable.js:69-73 | "active" keeps exactly the stored active users, "inactive" exactly the inactive ones, "all" returns the list itself; stored order is kept |
| `UserView.Search` | src/components/UserManagement/UserTable.js:60-67 | no contract of its own; `EmptyQueryMatchesEveryone`, `SearchThenStatusIsSelection` and `ViewMembership` state it: the users kept, in stored order, are exactly those whose lower-cased name, e-mail or role contains the lower-cased query, and an empty query keeps everyone |
| `UserView.ApplyStatus` | src/components/UserManagement/UserTable.js:69-73 | no contract of its own; `StatusFilterMeaning` states it |
| `UserView.EmptyQueryMatchesEveryone` | src/components/UserManagement/UserTable.js:60-66 | the empty query is contained in every field, so skipping the search for it changes nothing |
| `UserView.SearchThenStatusIsSelection` | src/components/UserManagement/UserTable.js:58-73 | search followed by the status stage keeps, in stored order, exactly the users that match the query and pass the status test |
| `UserView.KeyLessIsStrictWeakOrder` | src/components/UserManagement/UserTable.js:77-83 | the comparison `<` on each column (strings lexicographically, `false < true` for the status) is irreflexive and transitive, and two users are either ordered or equal on that column |
| `UserView.CompareIsConsistent` | src/components/UserManagement/UserTable.js:76-84 | the comparator is antisymmetric, returns 0 exactly for equal column values, and its "before" relation is transitive, as `Array.prototype.sort` requires |
| `UserView.Compare` | src/components/UserManagement/UserTable.js:76-84 | no contract of its own; `CompareIsConsistent` and `KeyLessIsStrictWeakOrder` state it |
| `UserView.SortUsers` | src/components/UserManagement/UserTable.js:76-84 | the sort returns a permutation of its input |
| `UserView.SortIsSorted` | src/components/UserManagement/UserTable.js:75-85 | no row is placed after one the comparator puts strictly before it |
| `UserView.SortIsStable` | src/components/UserManagement/UserTable.js:75-85 | for every column value, the rows with that value keep their input order |
| `UserView.SortedStableIsUnique` | src/components/UserManagement/UserTable.js:75-85 | two arrangements that are both sorted and keep the same order among ties are equal, so a stable sort has one possible outcome |
| `UserView.ViewOfUntouchedControls` | src/components/UserManagement/UserTable.js:57-88 | with an empty query, "all" selected and no column clicked, the view is the stored list |
| `UserView.View` | src/components/UserManagement/UserTable.js:57-88 | no contract of its own; `ViewMembership`, `ViewIsPermutedSelection`, `ViewIsOrdered`, `ViewIsStable` and `ViewIsTheStableSort` state it |
| `UserView.ViewIsPermutedSelection` | src/components/UserManagement/UserTable.js:57-88 | the view is a permutation of the users that match the query and pass the status filter; unsorted, it is exactly those users in stored order |
| `UserView.ViewMembership` | src/components/UserManagement/UserTable.js:58-73 | a user is shown if and only if it is stored, matches the query in name, e-mail or role after lower-casing, and passes the status filter |
| `UserView.ViewIsOrdered` | src/components/UserManagement/UserTable.js:75-85 | after a column click, values on that column never decrease down the view when ascending and never increase when descending |
| `UserView.ViewIsStable` | src/components/UserManagement/UserTable.js:75-85 | after a column click, rows with equal values on that column appear in stored order, in either direction |
| `UserView.ViewIsTheStableSort` | src/components/UserManagement/UserTable.js:57-88 | any arrangement of the selected users that is sorted and keeps stored order among ties equals the view |
| `UserView.ViewIgnoresQueryCase` | src/components/UserManagement/UserTable.js:60-67 | two queries that agree letter by letter up to case show the same rows in the same order |
| `Text.ContainsIffOccurs` | src/components/UserManagement/UserTable.js:63-65 | `includes` holds exactly when the query occurs at some position of the field |
| `Text.Contains` | src/components/UserManagement/UserTable.js:63-65 | no contract of its own; `ContainsIffOccurs` states it |
| `Text.LexLess` | src/components/UserManagement/UserTable.js:77-80 | no contract of its own; `LexLessIrreflexive`, `LexLessTransitive`, `LexLessTotal` and `LexLessAsymmetric` state it |
| `Text.LexLessIrreflexive` | src/components/UserManagement/UserTable.js:77 | no string is less than itself under `<` |
| `Text.LexLessTransitive` | src/components/UserManagement/UserTable.js:77 | string `<` is transitive |
| `Text.LexLessTotal` | src/components/UserManagement/UserTable.js:77-80 | of two different strings one is less than the other |
| `Text.LexLessAsymmetric` | src/components/UserManagement/UserTable.js:77-80 | `a < b` and `b < a` never hold together |
| `Text.Lower` | src/components/UserManagement/UserTable.js:63-65 | lowering keeps the length, maps every character on its own, and leaves no capital letter; `LowerEqualIffSameLetters` states what it identifies |
| `Text.LowerCharIgnoresCase` | src/components/UserManagement/UserTable.js:63-65 | two characters lower to the same one exactly when they are the same letter up to case |
| `Text.LowerEqualIffSameLetters` | src/components/UserManagement/UserTable.js:63-65 | two strings lower to the same text exactly when they have the same length and agree letter by letter up to case |
| `UserForm.InitialFields` | src/components/UserManagement/UserForm.js:6-9 | a new form starts with empty name, e-mail and role and inactive; an edit form starts with the user's values |
| `UserForm.Submit` | src/components/UserManagement/UserForm.js:11-23 | the form goes to `onSave` exactly when name, e-mail and role are non-empty and the e-mail matches the pattern, and then unchanged; an accepted e-mail has one `@` and no whitespace; each refusal carries its message |
| `UserForm.ResaveUnchangedKeepsList` | src/components/UserManagement/UserForm.js:6-23 | opening a stored valid user for editing and saving the form unchanged is accepted and leaves the user list as it was (ids unique) |
| `UserForm.SaveOfSubmissionKeepsUsersValid` | src/components/UserManagement/UserTable.js:28-38 | if every stored user has a name, a role and a matching e-mail, saving what the form submitted keeps it so |
| `UserForm.DeleteKeepsUsersValid` | src/components/UserManagement/UserTable.js:40-42 | a delete keeps every stored user valid |
| `Email.ValidEmailIffPattern` | src/components/UserManagement/UserForm.js:17-18 | the check at the first `@` accepts exactly the strings the anchored pattern matches |
| `Email.IsValidEmail` | src/components/UserManagement/UserForm.js:17-18 | no contract of its own; `ValidEmailIffPattern` and `ValidEmailIffWellShaped` state it |
| `Email.ValidEmailIffWellShaped` | src/components/UserManagement/UserForm.js:17-18 | the pattern accepts exactly the strings without whitespace, with one `@`, something before it, and after it a `.` with a character on each side |
| `Email.ExampleAccepted` | src/components/UserManagement/UserForm.js:17 | `jane@example.com` is accepted |
| `Email.ExampleWithoutDotRejected` | src/components/UserManagement/UserForm.js:17 | `jane@example` is refused |
| `Email.ExampleWithSpaceRejected` | src/components/UserManagement/UserForm.js:17 | `jo e@x.com` is refused |
| `Email.ExampleWithTwoAtsRejected` | src/components/UserManagement/UserForm.js:17 | `jane@@example.com` is refused |
| `Roles.SaveRole` | src/components/RoleManagement/RoleTable.js:26-44 | a role without a name or permission only sets the error, leaving roles and the editing state as they were; otherwise the error clears and editing ends; when a role is being edited, length and ids are kept, every entry with the edited id takes the submitted name and permissions under its own id and the others are unchanged; otherwise the new role is appended |
| `Roles.EditRole` | src/components/RoleManagement/RoleTable.js:32-35 | length and ids kept; the edited entry takes the new name and permissions; every other entry is unchanged |
| `Roles.CreateRole` | src/components/RoleManagement/RoleTable.js:38-39 | exactly one role is appended with the given name, permissions and id; the prefix is unchanged |
| `Roles.DeleteRole` | src/components/RoleManagement/RoleTable.js:47-49 | no remaining role has the id; the others keep their multiplicity and order |
| `Roles.DeleteAbsentIdKeepsList` | src/components/RoleManagement/RoleTable.js:47-49 | deleting an id no role carries leaves the list unchanged |
| `Roles.EditAbsentIdKeepsList` | src/components/RoleManagement/RoleTable.js:32-35 | editing an id no role carries returns the list unchanged |
| `Roles.SaveKeepsRolesWellFormed` | src/components/RoleManagement/RoleTable.js:27-44 | if every stored role has a name and a permission, so does every role after any save, accepted or refused |
| `Roles.DeleteKeepsRolesWellFormed` | src/components/RoleManagement/RoleTable.js:47-49 | the same after any delete |
| `Roles.SaveKeepsIdsUnique` | src/components/RoleManagement/RoleTable.js:32-39 | with a new id, a save keeps role ids unique |
| `Roles.DeleteKeepsIdsUnique` | src/components/RoleManagement/RoleTable.js:48 | a delete keeps role ids unique |
| `Roles.InitialDraft` | src/components/RoleManagement/RoleTable.js:166-167 | a new role form starts empty; an edit form starts with the role's name and permissions |
| `Roles.TogglePermission` | src/components/RoleManagement/RoleTable.js:170-176 | the clicked permission's membership flips; every other permission's membership is unchanged; a ticked permission is appended after the unchanged list; unticking removes it and keeps every other permission, each as often as before and in order; a list without duplicates stays without |
| `Roles.ResaveUnchangedKeepsRoles` | src/components/RoleManagement/RoleTable.js:166-185 | opening a stored well-formed role for editing and saving the form unchanged is accepted and leaves the role list as it was (ids unique), with the banner cleared and editing ended |
| `Roles.ToggleTwiceRestores` | src/components/RoleManagement/RoleTable.js:170-176 | ticking an unselected permission and unticking it gives back exactly the previous list |
| `Roles.SubmitRoleForm` | src/components/RoleManagement/RoleTable.js:178-185 | the form goes to `onSave` exactly when the name is non-empty and a permission is selected, and passes both unchanged; otherwise it shows its message |
| `Roles.SubmittedDraftIsSaved` | src/components/RoleManagement/RoleTable.js:178-185 | whatever the form submits passes the table's check: the save clears the error and ends editing |
| `UserPanel.SaveForm` | src/components/UserManagement/UserTable.js:28-38 | a save closes the form and ends editing; without an edited user it appends the new user; with one it keeps length and ids, every entry with the edited id becomes the submitted fields under its own id, and the others are unchanged |
| `UserPanel.AddAfterCancelledEditOverwrites` | src/components/UserManagement/UserTable.js:223 | edit Ann, cancel, "Add User" (the form opens as "Edit User" filled with Ann's values), type Bob's values and save: the list is Ann's entry overwritten with Bob's fields, and no user is added |
| `UserPanel.AddAfterDeletingEditedUserLosesIt` | src/components/UserManagement/UserTable.js:223 | edit Ann, cancel, delete Ann, "Add User", save Bob: the list stays empty, so the submitted user is lost |
| `UserPanel.AddAfterCancelCreates` | src/components/UserManagement/UserTable.js:223 | with that Cancel, "Add User" after any cancelled form appends the submitted user under the new id |
| `Scenario.JaneCreated` | src/components/UserManagement/UserForm.js:11-23 | the form accepts Jane Doe with `jane@example.com` as entered, and the table stores her under the new id |
| `Scenario.EditorRoleCreated` | src/components/RoleManagement/RoleTable.js:26-44 | saving "Editor" with Read and Write on an empty table succeeds and stores that one role |
| `Scenario.JaneFoundByName` | src/components/UserManagement/UserTable.js:60-66 | searching "jane" shows Jane |
| `Scenario.JaneHiddenForAdmin` | src/components/UserManagement/UserTable.js:60-66 | searching "admin" shows nobody |
| `Scenario.JaneHiddenWhenInactiveOnly` | src/components/UserManagement/UserTable.js:69-72 | the "inactive" filter hides the active Jane |
| `Scenario.EditorRoleDeleted` | src/components/RoleManagement/RoleTable.js:47-49 | deleting the only role empties the role table |

## Left out

- Persistence is not modelled: `localStorage` reads on mount and writes on every change, with `JSON.parse`/`JSON.stringify`. Lists are plain state passed in and returned. The user table also writes back its own copy of the roles, which belongs to this persistence.
- `Date.now()` is a clock read; the fresh id is a parameter.
- The confirmation modal (a timed delay, async code, key listeners), the dashboard page and the app shell are presentation and timers.
- Toasts, JSX, and the `showForm` / `showModal` / delete-target flags are UI. The error banner of the role table is kept, because a refused save shows in it.
- `UserForm.handleDelete` is not modelled: the user table never passes `onDelete`, and no button of the form calls it.
- Text.Lower: lowers ASCII letters only, not the full Unicode `toLowerCase` (which also lowers letters such as `É`).
- Text.LexLess: compares by character code, while JavaScript compares UTF-16 code units; the two differ only for characters above U+FFFF.
- The status select offers three values, modelled as three constructors; the source would treat any other value as "inactive".
- The source's fields are untyped; a missing field (`undefined`) in a stored record is not modelled.
- `Array.prototype.sort` is given by one stable insertion sort. `UserView.ViewIsTheStableSort` shows that every stable sort with this comparator gives the same rows, so the choice of algorithm does not matter.

## Findings

| source | as written | input that shows it | evidently intended | confidence | as-written member | corrected member |
|---|---|---|---|---|---|---|
| src/components/UserManagement/UserTable.js:223 | the form's Cancel only hides the form; the user whose Edit opened it stays recorded as being edited | click Edit on Ann, Cancel, then "Add User": the form opens titled "Edit User" and filled with Ann's values (UserTable.js:220, UserForm.js:6-9 and 43); type Bob's values over them and save: Ann is overwritten with Bob's fields and nobody is added; had Ann been deleted before "Add User", the save stores nothing and Bob is lost (`UserPanel.AddAfterDeletingEditedUserLosesIt`) | Cancel ends the edit, as the role table's Cancel does (RoleTable.js:141-144), so "Add User" creates a user | medium, not executed | `UserPanel.AddAfterCancelledEditOverwrites` | `UserPanel.AddAfterCancelCreates` |

=== FILE: basics.dfy ===
/** Vocabulary shared by the panels: optional values, what a form's submit
    handler does, and the two array combinators (`map` and `filter`) that the
    handlers are written with. */
module Basics {

  datatype Option<+T> = None | Some(value: T)

  /** What a form's submit handler does: refuse and show a message, or hand a
      payload to its `onSave` callback. */
  datatype Submission<+T> = Rejected(message: string) | Submitted(payload: T)

  /** `Array.prototype.map`: a fresh sequence, element by element. */
  function MapSeq<T, U>(f: T -> U, s: seq<T>): (r: seq<U>)
    ensures |r| == |s|
    ensures forall i :: 0 <= i < |s| ==> r[i] == f(s[i])
  {
    if |s| == 0 then [] else [f(s[0])] + MapSeq(f, s[1..])
  }

  /** `a` can be obtained from `b` by dropping elements: the order of what is
      kept is the order in `b`. */
  ghost predicate IsSubsequence<T>(a: seq<T>, b: seq<T>)
    decreases |b|
  {
    if |b| == 0 then |a| == 0
    else (|a| > 0 && a[0] == b[0] && IsSubsequence(a[1..], b[1..])) || IsSubsequence(a, b[1..])
  }

  /** `Array.prototype.filter`: the elements satisfying `p`, in their
      original order (`FilterContents` states exactly which). */
  function Filter<T>(p: T -> bool, s: seq<T>): (r: seq<T>)
    ensures |r| <= |s|
  {
    if |s| == 0 then []
    else
      var rest := Filter(p, s[1..]);
      if p(s[0]) then [s[0]] + rest else rest
  }

  /** The filter keeps exactly the elements satisfying `p`, each as often as
      in `s`, in their original order. */
  lemma {:induction false} FilterContents<T(!new)>(p: T -> bool, s: seq<T>)
    ensures forall x :: multiset(Filter(p, s))[x] == if p(x) then multiset(s)[x] else 0
    ensures forall x :: x in Filter(p, s) <==> x in s && p(x)
    ensures IsSubsequence(Filter(p, s), s)
    decreases |s|
  {
    if |s| > 0 {
      FilterContents(p, s[1..]);
      var rest := Filter(p, s[1..]);
      assert s == [s[0]] + s[1..];
      assert multiset(s) == multiset{s[0]} + multiset(s[1..]);
      if p(s[0]) {
        assert ([s[0]] + rest)[1..] == rest;
        assert multiset([s[0]] + rest) == multiset{s[0]} + multiset(rest);
      }
    }
  }

  /** No value occurs twice. */
  ghost predicate NoDuplicates<T(!new)>(s: seq<T>)
  {
    forall x :: multiset(s)[x] <= 1
  }

  /** A value occurring at two different indices occurs at least twice. */
  lemma TwoOccurrences<T>(s: seq<T>, i: int, k: int)
    requires 0 <= i < k < |s| && s[i] == s[k]
    ensures multiset(s)[s[i]] >= 2
  {
    assert s == s[..k] + s[k..];
    assert s[..k][i] == s[i];
    assert s[k..][0] == s[k];
  }

  /** In a sequence without duplicates, equal entries sit at the same index. */
  lemma SameEntrySameIndex<T(!new)>(s: seq<T>, i: int, k: int)
    requires NoDuplicates(s) && 0 <= i < |s| && 0 <= k < |s| && s[i] == s[k]
    ensures i == k
  {
    if i < k {
      TwoOccurrences(s, i, k);
    } else if k < i {
      TwoOccurrences(s, k, i);
    }
  }

  lemma {:induction false} FilterKeepsAll<T(!new)>(p: T -> bool, s: seq<T>)
    requires forall x :: x in s ==> p(x)
    ensures Filter(p, s) == s
    decreases |s|
  {
    if |s| > 0 {
      FilterKeepsAll(p, s[1..]);
      assert s == [s[0]] + s[1..];
    }
  }

  lemma FilterCons<T(!new)>(p: T -> bool, x: T, s: seq<T>)
    ensures Filter(p, [x] + s) == (if p(x) then [x] else []) + Filter(p, s)
  {
    assert ([x] + s)[1..] == s;
  }

  lemma {:induction false} FilterConcat<T(!new)>(p: T -> bool, a: seq<T>, b: seq<T>)
    ensures Filter(p, a + b) == Filter(p, a) + Filter(p, b)
    decreases |a|
  {
    if |a| > 0 {
      assert (a + b)[1..] == a[1..] + b;
      FilterConcat(p, a[1..], b);
    } else {
      assert a + b == b;
    }
  }

  /** Two tests that agree on every value filter alike. */
  lemma {:induction false} FilterSamePredicate<T>(p: T -> bool, q: T -> bool, s: seq<T>)
    requires forall x :: p(x) == q(x)
    ensures Filter(p, s) == Filter(q, s)
    decreases |s|
  {
    if |s| > 0 {
      FilterSamePredicate(p, q, s[1..]);
    }
  }

  /** Filtering twice is filtering once by the conjunction. */
  lemma {:induction false} FilterTwice<T(!new)>(p: T -> bool, q: T -> bool, pq: T -> bool, s: seq<T>)
    requires forall x :: pq(x) == (q(x) && p(x))
    ensures Filter(p, Filter(q, s)) == Filter(pq, s)
    decreases |s|
  {
    if |s| > 0 {
      FilterTwice(p, q, pq, s[1..]);
      if q(s[0]) {
        assert Filter(q, s) == [s[0]] + Filter(q, s[1..]);
        assert ([s[0]] + Filter(q, s[1..]))[1..] == Filter(q, s[1..]);
      }
    }
  }

  /** Mapping a filtered sequence never yields a value more often than
      mapping the whole sequence does. */
  lemma {:induction false} MapOfFilterIsSubMultiset<T(!new), U>(f: T -> U, p: T -> bool, s: seq<T>)
    ensures multiset(MapSeq(f, Filter(p, s))) <= multiset(MapSeq(f, s))
    decreases |s|
  {
    if |s| > 0 {
      MapOfFilterIsSubMultiset(f, p, s[1..]);
      assert MapSeq(f, s) == [f(s[0])] + MapSeq(f, s[1..]);
      if p(s[0]) {
        var rest := Filter(p, s[1..]);
        assert Filter(p, s) == [s[0]] + rest;
        assert ([s[0]] + rest)[1..] == rest;
        assert MapSeq(f, [s[0]] + rest) == [f(s[0])] + MapSeq(f, rest);
      }
    }
  }
}

=== FILE: email.dfy ===
/** The e-mail check of the user form, the regular expression
    `^[^\s@]+@[^\s@]+\.[^\s@]+$`: read once literally (`MatchesPattern`), once
    as a left-to-right check (`IsValidEmail`), and once as a plain description
    of the accepted strings (`WellShaped`); the lemmas say all three agree.
    The example lemmas take their address as a parameter fixed by a
    `requires` and are called with the literal: the verifier unfolds
    functions eagerly on a literal written in a lemma's own contract, which
    makes those proofs needlessly expensive. */
module Email {
  import opened Basics
  import opened Text

  /** The character class `[^\s@]`. */
  predicate PartChar(c: char)
  {
    !IsJsWhitespace(c) && c != '@'
  }

  predicate AllPartChars(s: string)
  {
    forall k :: 0 <= k < |s| ==> PartChar(s[k])
  }

  /** `e` splits as local part `e[..i]`, `@` at `i`, label `e[i+1..j]`, `.` at
      `j` and tail `e[j+1..]`, the three parts non-empty and in `[^\s@]+`. */
  predicate SplitsAt(e: string, i: int, j: int)
  {
    && 0 < i && i + 1 < j && j + 1 < |e|
    && e[i] == '@' && e[j] == '.'
    && AllPartChars(e[..i]) && AllPartChars(e[i + 1..j]) && AllPartChars(e[j + 1..])
  }

  /** The regular expression, anchored at both ends, as written. */
  ghost predicate MatchesPattern(e: string)
  {
    exists i, j :: SplitsAt(e, i, j)
  }

  /** Index of the first `c` in `s`, or `|s|` when there is none. */
  function IndexOf(s: string, c: char): (r: nat)
    ensures r <= |s|
    ensures r < |s| ==> s[r] == c
    ensures forall k :: 0 <= k < r ==> s[k] != c
  {
    if |s| == 0 || s[0] == c then 0 else 1 + IndexOf(s[1..], c)
  }

  /** A `.` with at least one character on either side of it. */
  predicate HasInnerDot(d: string)
  {
    exists k :: 0 < k < |d| - 1 && d[k] == '.'
  }

  /** The check the form runs: find the first `@`, then look at both sides. */
  function IsValidEmail(e: string): bool
  {
    var at := IndexOf(e, '@');
    && 0 < at < |e|
    && AllPartChars(e[..at])
    && AllPartChars(e[at + 1..])
    && HasInnerDot(e[at + 1..])
  }

  /** The accepted strings in words: no whitespace, exactly one `@`, something
      before it, and after it a `.` with a character on either side. */
  ghost predicate WellShaped(e: string)
  {
    && (forall k :: 0 <= k < |e| ==> !IsJsWhitespace(e[k]))
    && multiset(e)['@'] == 1
    && exists i :: 0 < i < |e| && e[i] == '@' && HasInnerDot(e[i + 1..])
  }

  lemma ValidEmailIffPattern(e: string)
    ensures IsValidEmail(e) <==> MatchesPattern(e)
  {
    if IsValidEmail(e) {
      ValidMatchesPattern(e);
    }
    if MatchesPattern(e) {
      PatternIsValid(e);
    }
  }

  lemma ValidMatchesPattern(e: string)
    requires IsValidEmail(e)
    ensures MatchesPattern(e)
  {
    var at := IndexOf(e, '@');
    var d := e[at + 1..];
    var k :| 0 < k < |d| - 1 && d[k] == '.';
    var j := at + 1 + k;
    assert e[at + 1..j] == d[..k];
    assert e[j + 1..] == d[k + 1..];
    assert SplitsAt(e, at, j);
  }

  lemma PatternIsValid(e: string)
    requires MatchesPattern(e)
    ensures IsValidEmail(e)
  {
    var i, j :| SplitsAt(e, i, j);
    assert e[..i][0] == e[0];
    FirstIndex(e, '@', i);
    var d := e[i + 1..];
    forall k | 0 <= k < |d|
      ensures PartChar(d[k])
    {
      if k < j - i - 1 {
        assert d[k] == e[i + 1..j][k];
      } else if k > j - i - 1 {
        assert d[k] == e[j + 1..][k - (j - i)];
      }
    }
    assert d[j - i - 1] == '.';
  }

  lemma FirstIndex(s: string, c: char, i: int)
    requires 0 <= i < |s| && s[i] == c
    requires forall k :: 0 <= k < i ==> s[k] != c
    ensures IndexOf(s, c) == i
  {
  }

  lemma ValidEmailIffWellShaped(e: string)
    ensures IsValidEmail(e) <==> WellShaped(e)
  {
    if IsValidEmail(e) {
      ValidIsWellShaped(e);
    }
    if WellShaped(e) {
      WellShapedIsValid(e);
    }
  }

  lemma ValidIsWellShaped(e: string)
    requires IsValidEmail(e)
    ensures WellShaped(e)
  {
    var at := IndexOf(e, '@');
    var local, domain := e[..at], e[at + 1..];
    assert e == local + [e[at]] + domain;
    OneAt(e, at);
    forall k | 0 <= k < |e|
      ensures !IsJsWhitespace(e[k])
    {
      if k < at {
        assert e[k] == local[k];
      } else if k > at {
        assert e[k] == domain[k - at - 1];
      }
    }
  }

  /** An `@` with no other `@` before or after it occurs once. */
  lemma OneAt(e: string, at: int)
    requires 0 <= at < |e| && e[at] == '@'
    requires '@' !in e[..at] && '@' !in e[at + 1..]
    ensures multiset(e)['@'] == 1
  {
    var local, domain := e[..at], e[at + 1..];
    assert e == local + [e[at]] + domain;
    assert multiset(e) == multiset(local) + multiset{'@'} + multiset(domain);
  }

  lemma WellShapedIsValid(e: string)
    requires WellShaped(e)
    ensures IsValidEmail(e)
  {
    var i :| 0 < i < |e| && e[i] == '@' && HasInnerDot(e[i + 1..]);
    forall k | 0 <= k < |e| && k != i
      ensures e[k] != '@'
    {
      if e[k] == '@' {
        if k < i { TwoOccurrences(e, k, i); } else { TwoOccurrences(e, i, k); }
      }
    }
    FirstIndex(e, '@', i);
    var local, domain := e[..i], e[i + 1..];
    assert forall k :: 0 <= k < |local| ==> local[k] == e[k];
    assert forall k :: 0 <= k < |domain| ==> domain[k] == e[i + 1 + k];
  }

  /** Lower-case letters and the dot are in `[^\s@]`. */
  lemma PlainPartChars(s: string)
    requires forall k :: 0 <= k < |s| ==> 'a' <= s[k] <= 'z' || s[k] == '.'
    ensures AllPartChars(s)
  {
  }

  lemma AcceptedAddress(e: string)
    requires e == "jane@example.com"
    ensures IsValidEmail(e)
  {
    FirstIndex(e, '@', 4);
    PlainPartChars(e[..4]);
    PlainPartChars(e[5..]);
    assert e[5..][7] == '.';
  }

  lemma ExampleAccepted()
    ensures IsValidEmail("jane@example.com")
  {
    AcceptedAddress("jane@example.com");
  }

  lemma AddressWithoutDot(e: string)
    requires e == "jane@example"
    ensures !IsValidEmail(e)
  {
    FirstIndex(e, '@', 4);
    var d := e[5..];
    assert forall k :: 0 <= k < |d| ==> d[k] == e[5 + k];
  }

  lemma ExampleWithoutDotRejected()
    ensures !IsValidEmail("jane@example")
  {
    AddressWithoutDot("jane@example");
  }

  lemma ExampleWithSpaceRejected()
    ensures !IsValidEmail("jo e@x.com")
  {
    var e := "jo e@x.com";
    FirstIndex(e, '@', 4);
    assert e[..4][2] == ' ';
  }

  lemma AddressWithTwoAts(e: string)
    requires e == "jane@@example.com"
    ensures !IsValidEmail(e)
  {
    FirstIndex(e, '@', 4);
    assert e[5..][0] == '@';
  }

  lemma ExampleWithTwoAtsRejected()
    ensures !IsValidEmail("jane@@example.com")
  {
    AddressWithTwoAts("jane@@example.com");
  }
}

=== FILE: roles.dfy ===
/** The role table and its form: saving a role (checked, then an edit or a
    creation), deleting one, and the form's permission checkboxes and submit
    check. Persistence is left to the caller; the fresh id that the table
    draws from the clock is a parameter. */
module Roles {
  import opened Basics

  type Permission = string

  /** The checkboxes the role form offers. */
  const PredefinedPermissions: seq<Permission> := ["Read", "Write", "Delete"]

  /** The message the table shows when a save is refused. */
  const RequiredMessage := "Role name and permissions are required."

  /** The message the form shows when its submit is refused. */
  const FormRequiredMessage := "Role name and at least one permission are required."

  datatype Role = Role(id: int, name: string, permissions: seq<Permission>)

  /** What the role form hands to `onSave`. */
  datatype RoleDraft = RoleDraft(name: string, permissions: seq<Permission>)

  /** The table's state apart from its modal flags: the roles, the id of the
      role being edited if any, and the error banner ("" when hidden). */
  datatype RolePanel = RolePanel(roles: seq<Role>, editing: Option<int>, error: string)

  /** `{ ...draft, id }` */
  function Stamp(d: RoleDraft, id: int): (r: Role)
    ensures r.id == id && RoleDraft(r.name, r.permissions) == d
  {
    Role(id, d.name, d.permissions)
  }

  function RoleIds(roles: seq<Role>): (ids: seq<int>)
    ensures |ids| == |roles|
  {
    MapSeq((r: Role) => r.id, roles)
  }

  ghost predicate UniqueRoleIds(roles: seq<Role>)
  {
    NoDuplicates(RoleIds(roles))
  }

  /** A named role granting at least one permission. */
  predicate WellFormed(r: Role)
  {
    r.name != "" && |r.permissions| > 0
  }

  ghost predicate AllWellFormed(roles: seq<Role>)
  {
    forall r :: r in roles ==> WellFormed(r)
  }

  /** The check at the top of the table's save handler. */
  predicate Acceptable(d: RoleDraft)
  {
    !(d.name == "" || |d.permissions| == 0)
  }

  /** Saving an edit: every entry whose id is the edited one takes the
      submitted name and permissions and keeps its id; the others are
      untouched. */
  function EditRole(roles: seq<Role>, id: int, d: RoleDraft): (r: seq<Role>)
    ensures |r| == |roles|
    ensures RoleIds(r) == RoleIds(roles)
    ensures forall i :: 0 <= i < |roles| && roles[i].id == id ==>
              r[i].id == id && r[i].name == d.name && r[i].permissions == d.permissions
    ensures forall i :: 0 <= i < |roles| && roles[i].id != id ==> r[i] == roles[i]
  {
    MapSeq((x: Role) => if x.id == id then Stamp(d, x.id) else x, roles)
  }

  /** Editing an id no role carries leaves the list as it is. */
  lemma EditAbsentIdKeepsList(roles: seq<Role>, id: int, d: RoleDraft)
    requires id !in RoleIds(roles)
    ensures EditRole(roles, id, d) == roles
  {
    forall i | 0 <= i < |roles|
      ensures EditRole(roles, id, d)[i] == roles[i]
    {
      assert RoleIds(roles)[i] == roles[i].id;
    }
  }

  /** Saving a new role: appended at the end under the supplied id. */
  function CreateRole(roles: seq<Role>, d: RoleDraft, freshId: int): (r: seq<Role>)
    ensures |r| == |roles| + 1
    ensures r[..|roles|] == roles
    ensures r[|roles|] == Stamp(d, freshId)
  {
    roles + [Stamp(d, freshId)]
  }

  /** The table's save handler. A draft without a name or without a
      permission only raises the error banner; otherwise the role list is
      edited or extended, editing ends and the banner is cleared. */
  function SaveRole(panel: RolePanel, d: RoleDraft, freshId: int): (r: RolePanel)
    ensures !Acceptable(d) ==> r.roles == panel.roles && r.editing == panel.editing && r.error == RequiredMessage
    ensures Acceptable(d) ==> r.error == "" && r.editing == None
    ensures Acceptable(d) && panel.editing.Some? ==>
              |r.roles| == |panel.roles| && RoleIds(r.roles) == RoleIds(panel.roles)
              && forall i :: 0 <= i < |panel.roles| ==>
                   r.roles[i] == if panel.roles[i].id == panel.editing.value then Stamp(d, panel.roles[i].id)
                                 else panel.roles[i]
    ensures Acceptable(d) && panel.editing.None? ==>
              |r.roles| == |panel.roles| + 1 && r.roles[..|panel.roles|] == panel.roles
              && r.roles[|panel.roles|] == Stamp(d, freshId)
  {
    if d.name == "" || |d.permissions| == 0 then
      panel.(error := RequiredMessage)
    else
      var roles := match panel.editing
        case Some(id) => EditRole(panel.roles, id, d)
        case None => CreateRole(panel.roles, d, freshId);
      RolePanel(roles, None, "")
  }

  /** The table's delete handler: every role with the id goes, the rest stay
      in order. */
  function DeleteRole(roles: seq<Role>, id: int): (r: seq<Role>)
    ensures forall x :: x in r ==> x.id != id
    ensures forall x :: multiset(r)[x] == if x.id == id then 0 else multiset(roles)[x]
    ensures IsSubsequence(r, roles)
  {
    var keep := (x: Role) => x.id != id;
    FilterContents(keep, roles);
    Filter(keep, roles)
  }

  /** Deleting an id no role carries leaves the list as it is. */
  lemma DeleteAbsentIdKeepsList(roles: seq<Role>, id: int)
    requires id !in RoleIds(roles)
    ensures DeleteRole(roles, id) == roles
  {
    forall x | x in roles ensures x.id != id {
      var i :| 0 <= i < |roles| && roles[i] == x;
      assert RoleIds(roles)[i] == x.id;
    }
    FilterKeepsAll((x: Role) => x.id != id, roles);
  }

  /** Every stored role stays named and non-empty through any save, refused
      or not, and any delete. */
  lemma SaveKeepsRolesWellFormed(panel: RolePanel, d: RoleDraft, freshId: int)
    requires AllWellFormed(panel.roles)
    ensures AllWellFormed(SaveRole(panel, d, freshId).roles)
  {
    var r := SaveRole(panel, d, freshId).roles;
    if Acceptable(d) {
      forall x | x in r ensures WellFormed(x) {
        var i :| 0 <= i < |r| && r[i] == x;
        if panel.editing.Some? {
          assert r[i] == panel.roles[i] || RoleDraft(r[i].name, r[i].permissions) == d;
          if r[i] == panel.roles[i] {
            assert panel.roles[i] in panel.roles;
          }
        } else if i < |panel.roles| {
          assert r[i] == panel.roles[i];
          assert panel.roles[i] in panel.roles;
        }
      }
    }
  }

  lemma DeleteKeepsRolesWellFormed(roles: seq<Role>, id: int)
    requires AllWellFormed(roles)
    ensures AllWellFormed(DeleteRole(roles, id))
  {
  }

  /** A fresh id keeps role ids unique through a save, and a delete never
      breaks uniqueness. */
  lemma SaveKeepsIdsUnique(panel: RolePanel, d: RoleDraft, freshId: int)
    requires UniqueRoleIds(panel.roles) && freshId !in RoleIds(panel.roles)
    ensures UniqueRoleIds(SaveRole(panel, d, freshId).roles)
  {
    if Acceptable(d) && panel.editing.None? {
      var r := SaveRole(panel, d, freshId).roles;
      assert RoleIds(r) == RoleIds(panel.roles) + [freshId];
    }
  }

  lemma DeleteKeepsIdsUnique(roles: seq<Role>, id: int)
    requires UniqueRoleIds(roles)
    ensures UniqueRoleIds(DeleteRole(roles, id))
  {
    MapOfFilterIsSubMultiset((x: Role) => x.id, (x: Role) => x.id != id, roles);
  }

  // ----- the role form -----

  /** The form's initial name and permissions: those of the role being
      edited, or empty. The defaults after `||` only take effect for a field
      that is missing, which stored records never are here. */
  function InitialDraft(role: Option<Role>): (d: RoleDraft)
    ensures role.None? ==> d.name == "" && d.permissions == []
    ensures role.Some? ==> d.name == role.value.name && d.permissions == role.value.permissions
  {
    match role
    case None => RoleDraft("", [])
    case Some(r) => RoleDraft(r.name, r.permissions)
  }

  /** A click on the checkbox of permission `p`: drop it if selected,
      otherwise append it. */
  function TogglePermission(perms: seq<Permission>, p: Permission): (r: seq<Permission>)
    ensures p in r <==> p !in perms
    ensures forall q :: q != p ==> (q in r <==> q in perms)
    ensures NoDuplicates(perms) ==> NoDuplicates(r)
    ensures p !in perms ==> |r| == |perms| + 1 && r[..|perms|] == perms
    ensures p in perms ==> IsSubsequence(r, perms)
    ensures p in perms ==> forall q :: q != p ==> multiset(r)[q] == multiset(perms)[q]
  {
    var keep := (q: Permission) => q != p;
    FilterContents(keep, perms);
    if p in perms then Filter(keep, perms) else perms + [p]
  }

  /** Ticking a permission that was not selected and unticking it again
      gives back exactly the list before. */
  lemma ToggleTwiceRestores(perms: seq<Permission>, p: Permission)
    requires p !in perms
    ensures TogglePermission(TogglePermission(perms, p), p) == perms
  {
    var keep := (q: Permission) => q != p;
    FilterConcat(keep, perms, [p]);
    FilterKeepsAll(keep, perms);
    assert Filter(keep, [p]) == [];
  }

  /** The form's submit handler: a name and at least one permission are
      required, and then both go to `onSave` as entered. */
  function SubmitRoleForm(name: string, perms: seq<Permission>): (r: Submission<RoleDraft>)
    ensures r.Submitted? <==> name != "" && |perms| > 0
    ensures r.Submitted? ==> r.payload.name == name && r.payload.permissions == perms
    ensures r.Rejected? ==> r.message == FormRequiredMessage
  {
    if name == "" || |perms| == 0 then Rejected(FormRequiredMessage)
    else Submitted(RoleDraft(name, perms))
  }

  /** Whatever the form submits passes the table's own check, so saving it
      clears the banner and stores a well-formed role. */
  lemma SubmittedDraftIsSaved(name: string, perms: seq<Permission>, panel: RolePanel, freshId: int)
    requires SubmitRoleForm(name, perms).Submitted?
    ensures var r := SaveRole(panel, SubmitRoleForm(name, perms).payload, freshId);
            r.error == "" && r.editing == None
  {
  }

  /** Opening a stored, well-formed role for editing and saving the form
      without changes leaves the role list as it was (ids being unique),
      clears the banner and ends editing. */
  lemma ResaveUnchangedKeepsRoles(panel: RolePanel, k: int, freshId: int)
    requires 0 <= k < |panel.roles| && UniqueRoleIds(panel.roles) && WellFormed(panel.roles[k])
    requires panel.editing == Some(panel.roles[k].id)
    ensures var d := InitialDraft(Some(panel.roles[k]));
            SubmitRoleForm(d.name, d.permissions).Submitted?
    ensures var d := InitialDraft(Some(panel.roles[k]));
            SaveRole(panel, SubmitRoleForm(d.name, d.permissions).payload, freshId)
              == RolePanel(panel.roles, None, "")
  {
    var x := panel.roles[k];
    var d := InitialDraft(Some(x));
    var draft := SubmitRoleForm(d.name, d.permissions).payload;
    assert draft == RoleDraft(x.name, x.permissions);
    var r := SaveRole(panel, draft, freshId).roles;
    forall i | 0 <= i < |panel.roles|
      ensures r[i] == panel.roles[i]
    {
      if panel.roles[i].id == x.id {
        assert RoleIds(panel.roles)[i] == RoleIds(panel.roles)[k];
        SameEntrySameIndex(RoleIds(panel.roles), i, k);
      }
    }
  }
}

=== FILE: scenario.dfy ===
/** An end-to-end walk through the dashboard: a role "Editor" is created,
    then the user Jane Doe with that role; the user view is queried; the role
    is deleted again. The lemmas about one fixed string take it as a
    parameter fixed by a `requires` and are called with the literal: the
    verifier unfolds functions eagerly on a literal written in a lemma's own
    contract, which makes those proofs needlessly expensive. */
module Scenario {
  import opened Basics
  import opened Text
  import opened Users
  import opened UserView
  import opened UserForm
  import opened Roles

  const Jane := User(1, "Jane Doe", "jane@example.com", "Editor", true)

  /** Every character of a contained string occurs in the containing one. */
  lemma {:induction false} ContainedCharsOccur(s: string, t: string, c: char)
    requires Contains(s, t) && c in t
    ensures c in s
    decreases |s|
  {
    if |t| <= |s| && s[..|t|] == t {
      var k :| 0 <= k < |t| && t[k] == c;
      assert s[k] == c;
    } else {
      ContainedCharsOccur(s[1..], t, c);
    }
  }

  /** A string missing one of `t`'s characters does not contain `t`. */
  lemma MissingCharExcludes(s: string, t: string, c: char)
    requires c in t && c !in s
    ensures !Contains(s, t)
  {
    if Contains(s, t) {
      ContainedCharsOccur(s, t, c);
    }
  }

  lemma EmailLacksQuery(e: string, q: string)
    requires e == "jane@example.com" && q == "admin"
    ensures !Contains(Lower(e), Lower(q))
  {
    LowerOfLowercase(e);
    LowerOfLowercase(q);
    assert q[1] == 'd';
    MissingCharExcludes(e, q, 'd');
  }

  lemma EmailLacksAdmin()
    ensures !Contains(Lower(Jane.email), Lower("admin"))
  {
    EmailLacksQuery(Jane.email, "admin");
  }

  lemma NameLacksQuery(n: string, q: string)
    requires n == "Jane Doe" && q == "admin"
    ensures !Contains(Lower(n), Lower(q))
  {
    LowerOfLowercase(q);
    assert Lower(n) == "jane doe";
    assert q[3] == 'i';
    MissingCharExcludes(Lower(n), q, 'i');
  }

  lemma NameLacksAdmin()
    ensures !Contains(Lower(Jane.name), Lower("admin"))
  {
    NameLacksQuery(Jane.name, "admin");
  }

  lemma RoleLacksQuery(r: string, q: string)
    requires r == "Editor" && q == "admin"
    ensures !Contains(Lower(r), Lower(q))
  {
    LowerOfLowercase(q);
    assert Lower(r) == "editor";
    assert q[0] == 'a';
    MissingCharExcludes(Lower(r), q, 'a');
  }

  lemma RoleLacksAdmin()
    ensures !Contains(Lower(Jane.role), Lower("admin"))
  {
    RoleLacksQuery(Jane.role, "admin");
  }

  lemma JaneDoesNotMatchAdmin()
    ensures !MatchesQuery(Jane, "admin")
  {
    NameLacksAdmin();
    EmailLacksAdmin();
    RoleLacksAdmin();
  }

  lemma NameHasQuery(n: string, q: string)
    requires n == "Jane Doe" && q == "jane"
    ensures Contains(Lower(n), Lower(q))
  {
    LowerOfLowercase(q);
    assert Lower(n)[..4] == q;
  }

  lemma JaneMatchesJane()
    ensures MatchesQuery(Jane, "jane")
  {
    NameHasQuery(Jane.name, "jane");
  }

  /** Creating the role "Editor" on an empty table succeeds. */
  lemma EditorRoleCreated(freshRoleId: int)
    ensures var panel := SaveRole(RolePanel([], None, ""), RoleDraft("Editor", ["Read", "Write"]), freshRoleId);
            panel.error == "" && panel.roles == [Role(freshRoleId, "Editor", ["Read", "Write"])]
  {
  }

  /** The form accepts Jane as entered and the table stores her under the
      fresh id. */
  lemma JaneCreated(freshUserId: int)
    ensures var form := UserFields("Jane Doe", "jane@example.com", "Editor", true);
            Submit(form) == Submitted(form)
            && SaveUser([], None, form, freshUserId) == [Jane.(id := freshUserId)]
  {
    Email.ExampleAccepted();
    Email.ValidEmailIffPattern("jane@example.com");
  }

  /** The view shows Jane for "jane" and hides her for "admin" and for the
      "inactive" filter. */
  lemma JaneFoundByName()
    ensures View([Jane], "jane", All, Unsorted) == [Jane]
  {
    JaneMatchesJane();
    FilterCons(Matcher("jane"), Jane, []);
    FilterCons(StatusPredicate(All), Jane, []);
  }

  lemma JaneHiddenForAdmin()
    ensures View([Jane], "admin", All, Unsorted) == []
  {
    JaneDoesNotMatchAdmin();
    FilterCons(Matcher("admin"), Jane, []);
  }

  lemma JaneHiddenWhenInactiveOnly()
    ensures View([Jane], "", InactiveOnly, Unsorted) == []
  {
    FilterCons(StatusPredicate(InactiveOnly), Jane, []);
  }

  /** Deleting the only role empties the role table. */
  lemma EditorRoleDeleted(freshRoleId: int)
    ensures DeleteRole([Role(freshRoleId, "Editor", ["Read", "Write"])], freshRoleId) == []
  {
    FilterCons((x: Role) => x.id != freshRoleId, Role(freshRoleId, "Editor", ["Read", "Write"]), []);
  }
}

=== FILE: text.dfy ===
/** The JavaScript string primitives the user view relies on: `toLowerCase`,
    `includes`, the `<` comparison on strings, and the whitespace class `\s`
    of regular expressions. */
module Text {
  import opened Basics

  predicate IsUpper(c: char)
  {
    'A' <= c <= 'Z'
  }

  /** `toLowerCase` on one character, for the ASCII letters. */
  function LowerChar(c: char): (r: char)
    ensures !IsUpper(r)
    ensures !IsUpper(c) ==> r == c
  {
    if IsUpper(c) then (c as int + 32) as char else c
  }

  /** `String.prototype.toLowerCase`, ASCII letters only. */
  function Lower(s: string): (r: string)
    ensures |r| == |s|
    ensures forall i :: 0 <= i < |s| ==> r[i] == LowerChar(s[i])
    ensures forall i :: 0 <= i < |r| ==> !IsUpper(r[i])
  {
    MapSeq(LowerChar, s)
  }

  /** Lowering leaves text without capital letters as it is. */
  lemma LowerOfLowercase(s: string)
    requires forall i :: 0 <= i < |s| ==> !IsUpper(s[i])
    ensures Lower(s) == s
  {
  }

  /** The same letter up to case: equal, or a capital and its small letter. */
  predicate SameLetter(c: char, d: char)
  {
    c == d || (IsUpper(c) && d as int == c as int + 32) || (IsUpper(d) && c as int == d as int + 32)
  }

  /** Two characters lower to the same one exactly when they are the same
      letter up to case. */
  lemma LowerCharIgnoresCase(c: char, d: char)
    ensures LowerChar(c) == LowerChar(d) <==> SameLetter(c, d)
  {
  }

  /** Two strings lower to the same text exactly when they agree letter by
      letter up to case: this is what makes a lower-cased comparison
      case-insensitive. */
  lemma LowerEqualIffSameLetters(s: string, t: string)
    ensures Lower(s) == Lower(t) <==> |s| == |t| && forall i :: 0 <= i < |s| ==> SameLetter(s[i], t[i])
  {
    if Lower(s) == Lower(t) {
      forall i | 0 <= i < |s|
        ensures SameLetter(s[i], t[i])
      {
        assert Lower(s)[i] == Lower(t)[i];
        LowerCharIgnoresCase(s[i], t[i]);
      }
    }
    if |s| == |t| && forall i :: 0 <= i < |s| ==> SameLetter(s[i], t[i]) {
      forall i | 0 <= i < |s|
        ensures Lower(s)[i] == Lower(t)[i]
      {
        LowerCharIgnoresCase(s[i], t[i]);
      }
    }
  }

  /** `t` occurs in `s` starting at index `i`. */
  predicate OccursAt(s: string, t: string, i: int)
  {
    0 <= i && i + |t| <= |s| && s[i..i + |t|] == t
  }

  /** `String.prototype.includes`: `t` is a prefix of `s` or of one of its
      suffixes. */
  predicate Contains(s: string, t: string)
    decreases |s|
  {
    (|t| <= |s| && s[..|t|] == t) || (|s| > 0 && Contains(s[1..], t))
  }

  lemma {:induction false} ContainsIffOccurs(s: string, t: string)
    ensures Contains(s, t) <==> exists i :: OccursAt(s, t, i)
    decreases |s|
  {
    if |t| <= |s| && s[..|t|] == t {
      assert OccursAt(s, t, 0);
    } else if |s| > 0 {
      ContainsIffOccurs(s[1..], t);
      if Contains(s, t) {
        var i :| OccursAt(s[1..], t, i);
        OccursShiftedRight(s, t, i);
      }
      if i :| OccursAt(s, t, i) {
        OccursShiftedLeft(s, t, i);
      }
    }
  }

  /** An occurrence in the tail is one in the whole string, one place on. */
  lemma OccursShiftedRight(s: string, t: string, i: int)
    requires |s| > 0 && OccursAt(s[1..], t, i)
    ensures OccursAt(s, t, i + 1)
  {
    assert s[1..][i..i + |t|] == s[i + 1..i + 1 + |t|];
  }

  /** An occurrence past the first character is one in the tail. */
  lemma OccursShiftedLeft(s: string, t: string, i: int)
    requires |s| > 0 && OccursAt(s, t, i) && !(|t| <= |s| && s[..|t|] == t)
    ensures OccursAt(s[1..], t, i - 1)
  {
    assert i != 0;
    assert s[1..][i - 1..i - 1 + |t|] == s[i..i + |t|];
  }

  /** JavaScript's `<` on two strings: lexicographic by character, a proper
      prefix before the longer string. */
  predicate LexLess(a: string, b: string)
    decreases |a|
  {
    |b| > 0 && (|a| == 0 || a[0] < b[0] || (a[0] == b[0] && LexLess(a[1..], b[1..])))
  }

  lemma {:induction false} LexLessIrreflexive(a: string)
    ensures !LexLess(a, a)
    decreases |a|
  {
    if |a| > 0 {
      LexLessIrreflexive(a[1..]);
    }
  }

  lemma {:induction false} LexLessTransitive(a: string, b: string, c: string)
    requires LexLess(a, b) && LexLess(b, c)
    ensures LexLess(a, c)
    decreases |a|
  {
    if |a| > 0 && a[0] == b[0] && b[0] == c[0] {
      LexLessTransitive(a[1..], b[1..], c[1..]);
    }
  }

  /** Any two strings are equal or ordered one way round. */
  lemma {:induction false} LexLessTotal(a: string, b: string)
    ensures a == b || LexLess(a, b) || LexLess(b, a)
    decreases |a|
  {
    if |a| > 0 && |b| > 0 && a[0] == b[0] {
      LexLessTotal(a[1..], b[1..]);
      if a[1..] == b[1..] {
        assert a == [a[0]] + a[1..] && b == [b[0]] + b[1..];
      }
    }
  }

  lemma LexLessAsymmetric(a: string, b: string)
    ensures !(LexLess(a, b) && LexLess(b, a))
  {
    if LexLess(a, b) && LexLess(b, a) {
      LexLessTransitive(a, b, a);
      LexLessIrreflexive(a);
    }
  }

  /** The class `\s` of JavaScript regular expressions: the WhiteSpace and
      LineTerminator code points of ECMAScript. */
  predicate IsJsWhitespace(c: char)
  {
    var n := c as int;
    n == 0x09 || n == 0x0A || n == 0x0B || n == 0x0C || n == 0x0D || n == 0x20
    || n == 0xA0 || n == 0x1680 || (0x2000 <= n <= 0x200A)
    || n == 0x2028 || n == 0x2029 || n == 0x202F || n == 0x205F
    || n == 0x3000 || n == 0xFEFF
  }
}

=== FILE: user_form.dfy ===
/** The user form: its initial field values and its submit check (all fields
    filled, then the e-mail pattern). */
module UserForm {
  import opened Basics
  import opened Email
  import opened Users

  const MissingFieldsMessage := "Please fill in all fields."

  const InvalidEmailMessage := "Please enter a valid email address."

  /** The fields a form opens with: the edited user's, or empty and
      inactive for a new user. The defaults after `||` only take effect for
      a field that is missing, which stored records never are here. */
  function InitialFields(user: Option<User>): (f: UserFields)
    ensures user.None? ==> f == UserFields("", "", "", false)
    ensures user.Some? ==>
              f.name == user.value.name && f.email == user.value.email
              && f.role == user.value.role && f.active == user.value.active
  {
    match user
    case None => UserFields("", "", "", false)
    case Some(u) => UserFields(u.name, u.email, u.role, u.active)
  }

  /** The submit handler. The form goes to `onSave`, unchanged, exactly when
      name, e-mail and role are filled in and the e-mail matches
      `^[^\s@]+@[^\s@]+\.[^\s@]+$`; such an e-mail has one `@` and no
      whitespace. */
  function Submit(form: UserFields): (r: Submission<UserFields>)
    ensures r.Submitted? <==> form.name != "" && form.email != "" && form.role != "" && MatchesPattern(form.email)
    ensures r.Submitted? ==> r.payload == form
    ensures r.Submitted? ==> WellShaped(form.email)
    ensures (form.name == "" || form.email == "" || form.role == "") ==> r == Rejected(MissingFieldsMessage)
    ensures (form.name != "" && form.email != "" && form.role != "" && !MatchesPattern(form.email))
            ==> r == Rejected(InvalidEmailMessage)
  {
    ValidEmailIffPattern(form.email);
    ValidEmailIffWellShaped(form.email);
    if form.name == "" || form.email == "" || form.role == "" then Rejected(MissingFieldsMessage)
    else if !IsValidEmail(form.email) then Rejected(InvalidEmailMessage)
    else Submitted(form)
  }

  /** A stored user as the form would accept it. */
  ghost predicate ValidUser(u: User)
  {
    u.name != "" && u.role != "" && MatchesPattern(u.email)
  }

  ghost predicate AllValid(users: seq<User>)
  {
    forall u :: u in users ==> ValidUser(u)
  }

  /** If every stored user passed the form, this stays so after the table
      saves what the form submitted, and after a delete. */
  lemma SaveOfSubmissionKeepsUsersValid(users: seq<User>, editing: Option<int>, form: UserFields, freshId: int)
    requires AllValid(users) && Submit(form).Submitted?
    ensures AllValid(SaveUser(users, editing, Submit(form).payload, freshId))
  {
    var f := Submit(form).payload;
    var r := SaveUser(users, editing, f, freshId);
    forall u | u in r ensures ValidUser(u) {
      var i :| 0 <= i < |r| && r[i] == u;
      if i < |users| && r[i] == users[i] {
        assert users[i] in users;
      } else {
        assert u.name == f.name && u.email == f.email && u.role == f.role;
      }
    }
  }

  lemma DeleteKeepsUsersValid(users: seq<User>, id: int)
    requires AllValid(users)
    ensures AllValid(DeleteUser(users, id))
  {
  }

  /** Opening a stored, valid user for editing and saving the form without
      changes leaves the list as it was (ids being unique). */
  lemma ResaveUnchangedKeepsList(users: seq<User>, k: int, freshId: int)
    requires 0 <= k < |users| && UniqueUserIds(users) && ValidUser(users[k])
    ensures Submit(InitialFields(Some(users[k]))).Submitted?
    ensures SaveUser(users, Some(users[k].id), Submit(InitialFields(Some(users[k]))).payload, freshId) == users
  {
    var u := users[k];
    var f := InitialFields(Some(u));
    assert f == UserFields(u.name, u.email, u.role, u.active);
    var r := SaveUser(users, Some(u.id), Submit(f).payload, freshId);
    forall i | 0 <= i < |users|
      ensures r[i] == users[i]
    {
      if users[i].id == u.id {
        assert UserIds(users)[i] == UserIds(users)[k];
        SameEntrySameIndex(UserIds(users), i, k);
      }
    }
  }
}

=== FILE: user_panel.dfy ===
/** The user table's form state around the list: which user, if any, the form
    edits, and whether the form is open. The buttons open the form for a new
    user or for an existing one; the form's Cancel closes it; a save goes
    through the table's save handler and then closes the form. */
module UserPanel {
  import opened Basics
  import opened Users

  datatype Panel = Panel(users: seq<User>, editing: Option<int>, formOpen: bool)

  /** "Add User": opens the form, whatever is being edited. The form is
      handed the recorded user, so after a cancelled edit it opens titled
      "Edit User" and filled with that user's values. */
  function OpenForAdd(p: Panel): (r: Panel)
    ensures r.formOpen && r.users == p.users && r.editing == p.editing
  {
    p.(formOpen := true)
  }

  /** "Edit" on a row: the form opens on that user. */
  function OpenForEdit(p: Panel, id: int): (r: Panel)
    ensures r.formOpen && r.users == p.users && r.editing == Some(id)
  {
    p.(editing := Some(id), formOpen := true)
  }

  /** The form's Cancel as the table wires it: the form closes and the user
      being edited stays recorded. */
  function CancelAsWritten(p: Panel): (r: Panel)
    ensures !r.formOpen && r.users == p.users && r.editing == p.editing
  {
    p.(formOpen := false)
  }

  /** Cancel as the role table does it: the form closes and editing ends. */
  function Cancel(p: Panel): (r: Panel)
    ensures !r.formOpen && r.users == p.users && r.editing == None
  {
    Panel(p.users, None, false)
  }

  /** A submitted form: the table saves it (an edit when a user is being
      edited, a creation otherwise), editing ends and the form closes. */
  function SaveForm(p: Panel, f: UserFields, freshId: int): (r: Panel)
    ensures !r.formOpen && r.editing == None
    ensures p.editing.None? ==> r.users == p.users + [WithId(f, freshId)]
    ensures p.editing.Some? ==> |r.users| == |p.users| && UserIds(r.users) == UserIds(p.users)
    ensures p.editing.Some? ==>
              forall i :: 0 <= i < |p.users| ==>
                r.users[i] == if p.users[i].id == p.editing.value then WithId(f, p.users[i].id) else p.users[i]
  {
    Panel(SaveUser(p.users, p.editing, f, freshId), None, false)
  }

  const Ann := User(1, "Ann", "ann@example.com", "Editor", true)

  const Bob := UserFields("Bob", "bob@example.com", "Viewer", true)

  /** With Cancel as written: open Ann for editing, cancel, press "Add User"
      (the form opens as "Edit User", filled with Ann's values), type Bob's
      values over them and save. No user is added; Ann's entry is
      overwritten with Bob's fields. */
  lemma AddAfterCancelledEditOverwrites(freshId: int)
    ensures var p := SaveForm(OpenForAdd(CancelAsWritten(OpenForEdit(Panel([Ann], None, false), Ann.id))), Bob, freshId);
            p.users == [WithId(Bob, Ann.id)]
  {
  }

  /** With Cancel as written, and Ann deleted after the cancelled edit: the
      save maps over a list in which no entry carries Ann's id, so the
      submitted user is stored nowhere and the list stays empty. */
  lemma AddAfterDeletingEditedUserLosesIt(freshId: int)
    ensures var p := CancelAsWritten(OpenForEdit(Panel([Ann], None, false), Ann.id));
            var q := OpenForAdd(p.(users := DeleteUser(p.users, Ann.id)));
            SaveForm(q, Bob, freshId).users == []
  {
  }

  /** With Cancel ending the edit, "Add User" after any cancelled form creates
      the submitted user under the fresh id and keeps every stored one. */
  lemma AddAfterCancelCreates(p: Panel, f: UserFields, freshId: int)
    ensures SaveForm(OpenForAdd(Cancel(p)), f, freshId).users == p.users + [WithId(f, freshId)]
  {
  }
}

=== FILE: user_view.dfy ===
/** The derived view of the user table: the search box, the status select
    and the sortable column headers, applied in that order to a copy of the
    user list. */
module UserView {
  import opened Basics
  import opened Text
  import opened Users

  datatype SortKey = ByName | ByEmail | ByRole | ByActive

  datatype Direction = Ascending | Descending

  /** The table's sort state: none until a column header is clicked. */
  datatype SortConfig = Unsorted | SortBy(key: SortKey, direction: Direction)

  /** The status select: "all", "active" or "inactive". */
  datatype StatusFilter = All | ActiveOnly | InactiveOnly

  // ----- sort state -----

  /** A click on the header of column `key`. */
  function RequestSort(config: SortConfig, key: SortKey): (r: SortConfig)
    ensures r.SortBy? && r.key == key
    ensures r.direction == Descending <==> config == SortBy(key, Ascending)
  {
    var flip := config.SortBy? && config.key == key && config.direction == Ascending;
    SortBy(key, if flip then Descending else Ascending)
  }

  /** Clicking the same header again always flips the direction, so two
      clicks starting from ascending come back to ascending. */
  lemma RequestSortTwice(config: SortConfig, key: SortKey)
    ensures RequestSort(RequestSort(config, key), key).direction != RequestSort(config, key).direction
    ensures RequestSort(RequestSort(SortBy(key, Ascending), key), key) == SortBy(key, Ascending)
  {
  }

  // ----- search and status filter -----

  /** Name, e-mail or role contains the query, all lower-cased. */
  predicate MatchesQuery(u: User, query: string)
  {
    var q := Lower(query);
    Contains(Lower(u.name), q) || Contains(Lower(u.email), q) || Contains(Lower(u.role), q)
  }

  function Matcher(query: string): User -> bool
  {
    (u: User) => MatchesQuery(u, query)
  }

  /** The search stage; an empty query filters nothing. */
  function Search(users: seq<User>, query: string): seq<User>
  {
    if query != "" then Filter(Matcher(query), users) else users
  }

  /** The test applied to each user when the select is not "all". */
  predicate KeepsStatus(status: StatusFilter, u: User)
  {
    status == All || u.active == (status == ActiveOnly)
  }

  function StatusPredicate(status: StatusFilter): User -> bool
  {
    (u: User) => KeepsStatus(status, u)
  }

  function ApplyStatus(users: seq<User>, status: StatusFilter): seq<User>
  {
    if status != All then Filter(StatusPredicate(status), users) else users
  }

  /** What the select means: "active" keeps exactly the active users,
      "inactive" exactly the inactive ones, "all" everyone, in input order. */
  lemma StatusFilterMeaning(users: seq<User>, status: StatusFilter)
    ensures status == All ==> ApplyStatus(users, status) == users
    ensures status == ActiveOnly ==> forall u :: u in ApplyStatus(users, status) <==> u in users && u.active
    ensures status == InactiveOnly ==> forall u :: u in ApplyStatus(users, status) <==> u in users && !u.active
    ensures IsSubsequence(ApplyStatus(users, status), users)
  {
    if status == All {
      SubsequenceOfItself(users);
    } else {
      FilterContents(StatusPredicate(status), users);
    }
  }

  lemma {:induction false} SubsequenceOfItself(s: seq<User>)
    ensures IsSubsequence(s, s)
    decreases |s|
  {
    if |s| > 0 {
      SubsequenceOfItself(s[1..]);
    }
  }

  /** A user passes both stages. */
  predicate Selected(u: User, query: string, status: StatusFilter)
  {
    MatchesQuery(u, query) && KeepsStatus(status, u)
  }

  function Selector(query: string, status: StatusFilter): User -> bool
  {
    (u: User) => Selected(u, query, status)
  }

  lemma EmptyQueryMatchesEveryone(u: User)
    ensures MatchesQuery(u, "")
  {
    assert Lower("") == "";
    assert Lower(u.name)[..0] == "";
  }

  /** Search then status filter is one filter by `Selected`, order kept. */
  lemma SearchThenStatusIsSelection(users: seq<User>, query: string, status: StatusFilter)
    ensures ApplyStatus(Search(users, query), status) == Filter(Selector(query, status), users)
  {
    if query == "" {
      forall u | u in users ensures Matcher(query)(u) {
        EmptyQueryMatchesEveryone(u);
      }
      FilterKeepsAll(Matcher(query), users);
    }
    var searched := Filter(Matcher(query), users);
    assert Search(users, query) == searched;
    if status == All {
      forall u | u in searched ensures StatusPredicate(status)(u) { }
      FilterKeepsAll(StatusPredicate(status), searched);
    }
    FilterTwice(StatusPredicate(status), Matcher(query), Selector(query, status), users);
  }

  // ----- the comparator -----

  /** The `<` of the comparator on the chosen column; `false < true`. */
  predicate KeyLess(a: User, b: User, key: SortKey)
  {
    match key
    case ByName => LexLess(a.name, b.name)
    case ByEmail => LexLess(a.email, b.email)
    case ByRole => LexLess(a.role, b.role)
    case ByActive => !a.active && b.active
  }

  predicate SameKey(a: User, b: User, key: SortKey)
  {
    match key
    case ByName => a.name == b.name
    case ByEmail => a.email == b.email
    case ByRole => a.role == b.role
    case ByActive => a.active == b.active
  }

  /** The comparator handed to `Array.prototype.sort`. */
  function Compare(a: User, b: User, key: SortKey, dir: Direction): int
  {
    if KeyLess(a, b, key) then (if dir == Ascending then -1 else 1)
    else if KeyLess(b, a, key) then (if dir == Ascending then 1 else -1)
    else 0
  }

  /** `a` is placed strictly before `b`. */
  predicate Precedes(a: User, b: User, key: SortKey, dir: Direction)
  {
    Compare(a, b, key, dir) < 0
  }

  lemma KeyLessIsStrictWeakOrder(a: User, b: User, c: User, key: SortKey)
    ensures !KeyLess(a, a, key)
    ensures KeyLess(a, b, key) && KeyLess(b, c, key) ==> KeyLess(a, c, key)
    ensures KeyLess(a, b, key) || KeyLess(b, a, key) || SameKey(a, b, key)
    ensures SameKey(a, b, key) ==> !KeyLess(a, b, key)
  {
    match key
    case ByName =>
      LexLessIrreflexive(a.name);
      if KeyLess(a, b, key) && KeyLess(b, c, key) { LexLessTransitive(a.name, b.name, c.name); }
      LexLessTotal(a.name, b.name);
      LexLessIrreflexive(b.name);
    case ByEmail =>
      LexLessIrreflexive(a.email);
      if KeyLess(a, b, key) && KeyLess(b, c, key) { LexLessTransitive(a.email, b.email, c.email); }
      LexLessTotal(a.email, b.email);
      LexLessIrreflexive(b.email);
    case ByRole =>
      LexLessIrreflexive(a.role);
      if KeyLess(a, b, key) && KeyLess(b, c, key) { LexLessTransitive(a.role, b.role, c.role); }
      LexLessTotal(a.role, b.role);
      LexLessIrreflexive(b.role);
    case ByActive =>
  }

  /** The comparator is consistent in the sense `Array.prototype.sort`
      requires: antisymmetric, zero exactly on equal keys, transitive. */
  lemma CompareIsConsistent(a: User, b: User, c: User, key: SortKey, dir: Direction)
    ensures Compare(a, b, key, dir) == -Compare(b, a, key, dir)
    ensures Compare(a, b, key, dir) == 0 <==> SameKey(a, b, key)
    ensures Precedes(a, b, key, dir) && Precedes(b, c, key, dir) ==> Precedes(a, c, key, dir)
  {
    KeyLessIsStrictWeakOrder(a, b, c, key);
    KeyLessIsStrictWeakOrder(b, a, c, key);
    KeyLessIsStrictWeakOrder(c, b, a, key);
    LexLessAsymmetric(a.name, b.name);
    LexLessAsymmetric(a.email, b.email);
    LexLessAsymmetric(a.role, b.role);
  }

  /** `b <= c` and `a <= b` on the placement order give `a <= c`. */
  lemma NotPrecedesTransitive(a: User, b: User, c: User, key: SortKey, dir: Direction)
    requires !Precedes(b, a, key, dir) && !Precedes(c, b, key, dir)
    ensures !Precedes(c, a, key, dir)
  {
    CompareIsConsistent(a, b, c, key, dir);
    CompareIsConsistent(c, a, b, key, dir);
    CompareIsConsistent(b, c, a, key, dir);
    KeyLessIsStrictWeakOrder(a, b, c, key);
    KeyLessIsStrictWeakOrder(c, a, b, key);
  }

  // ----- stable insertion sort -----

  /** Inserts `x` before the first element that does not strictly precede
      it, so `x` lands ahead of the elements that tie with it. */
  function Insert(x: User, s: seq<User>, key: SortKey, dir: Direction): (r: seq<User>)
    ensures multiset(r) == multiset(s) + multiset{x}
    ensures |r| == |s| + 1
  {
    if |s| == 0 || !Precedes(s[0], x, key, dir) then [x] + s
    else
      assert s == [s[0]] + s[1..];
      [s[0]] + Insert(x, s[1..], key, dir)
  }

  /** Stable sort: each element, from the last to the first, is inserted
      into the sorted rest. */
  function SortUsers(s: seq<User>, key: SortKey, dir: Direction): (r: seq<User>)
    ensures multiset(r) == multiset(s)
  {
    if |s| == 0 then []
    else
      assert s == [s[0]] + s[1..];
      Insert(s[0], SortUsers(s[1..], key, dir), key, dir)
  }

  /** No element is placed after one it strictly precedes. */
  ghost predicate Sorted(s: seq<User>, key: SortKey, dir: Direction)
  {
    forall i, j :: 0 <= i < j < |s| ==> !Precedes(s[j], s[i], key, dir)
  }

  /** The elements of `s` whose key equals that of `y`, in order. */
  function WithKeyOf(s: seq<User>, y: User, key: SortKey): seq<User>
  {
    Filter(HasKeyOf(y, key), s)
  }

  function HasKeyOf(y: User, key: SortKey): User -> bool
  {
    (u: User) => SameKey(u, y, key)
  }

  /** For every key, the elements carrying it appear in the same order. */
  ghost predicate Stable(input: seq<User>, output: seq<User>, key: SortKey)
  {
    forall y :: WithKeyOf(output, y, key) == WithKeyOf(input, y, key)
  }

  lemma {:induction false} InsertKeepsSorted(x: User, s: seq<User>, key: SortKey, dir: Direction)
    requires Sorted(s, key, dir)
    ensures Sorted(Insert(x, s, key, dir), key, dir)
    decreases |s|
  {
    if |s| == 0 {
    } else if !Precedes(s[0], x, key, dir) {
      assert Insert(x, s, key, dir) == [x] + s;
      InsertAtFrontSorted(x, s, key, dir);
    } else {
      var t := Insert(x, s[1..], key, dir);
      InsertKeepsSorted(x, s[1..], key, dir);
      SortedSuffix(s, key, dir);
      HeadStaysFirst(x, s, t, key, dir);
      ConsSorted(s[0], t, key, dir);
    }
  }

  /** `x` may go in front of a sorted sequence whose head does not strictly
      precede it. */
  lemma InsertAtFrontSorted(x: User, s: seq<User>, key: SortKey, dir: Direction)
    requires |s| > 0 && Sorted(s, key, dir) && !Precedes(s[0], x, key, dir)
    ensures Sorted([x] + s, key, dir)
  {
    var r := [x] + s;
    forall i, j | 0 <= i < j < |r|
      ensures !Precedes(r[j], r[i], key, dir)
    {
      if i == 0 && j > 1 {
        NotPrecedesTransitive(x, s[0], s[j - 1], key, dir);
      }
    }
  }

  /** When `x` moves past the head of a sorted sequence, nothing of the
      result strictly precedes that head. */
  lemma HeadStaysFirst(x: User, s: seq<User>, t: seq<User>, key: SortKey, dir: Direction)
    requires |s| > 0 && Sorted(s, key, dir) && Precedes(s[0], x, key, dir)
    requires multiset(t) == multiset(s[1..]) + multiset{x}
    ensures forall j :: 0 <= j < |t| ==> !Precedes(t[j], s[0], key, dir)
  {
    forall j | 0 <= j < |t|
      ensures !Precedes(t[j], s[0], key, dir)
    {
      assert t[j] in multiset(t);
      if t[j] == x {
        CompareIsConsistent(x, s[0], x, key, dir);
      } else {
        assert t[j] in multiset(s[1..]);
        var k :| 0 <= k < |s[1..]| && s[1..][k] == t[j];
        assert s[k + 1] == t[j];
      }
    }
  }

  /** A sorted sequence stays sorted behind a head that nothing of it
      strictly precedes. */
  lemma ConsSorted(h: User, t: seq<User>, key: SortKey, dir: Direction)
    requires Sorted(t, key, dir)
    requires forall j :: 0 <= j < |t| ==> !Precedes(t[j], h, key, dir)
    ensures Sorted([h] + t, key, dir)
  {
    var r := [h] + t;
    forall i, j | 0 <= i < j < |r|
      ensures !Precedes(r[j], r[i], key, dir)
    {
      assert r[j] == t[j - 1];
      if i > 0 {
        assert r[i] == t[i - 1];
      }
    }
  }

  lemma {:induction false} SortIsSorted(s: seq<User>, key: SortKey, dir: Direction)
    ensures Sorted(SortUsers(s, key, dir), key, dir)
    decreases |s|
  {
    if |s| > 0 {
      SortIsSorted(s[1..], key, dir);
      InsertKeepsSorted(s[0], SortUsers(s[1..], key, dir), key, dir);
    }
  }

  /** Among the elements with `y`'s key, `x` is placed first if it has that
      key, and the others keep their order. */
  lemma {:induction false} InsertWithKeyOf(x: User, s: seq<User>, y: User, key: SortKey, dir: Direction)
    ensures WithKeyOf(Insert(x, s, key, dir), y, key)
            == (if SameKey(x, y, key) then [x] else []) + WithKeyOf(s, y, key)
    decreases |s|
  {
    if |s| == 0 || !Precedes(s[0], x, key, dir) {
      assert Insert(x, s, key, dir) == [x] + s;
      FilterCons(HasKeyOf(y, key), x, s);
    } else {
      InsertWithKeyOf(x, s[1..], y, key, dir);
      InsertPastHead(x, s, y, key, dir);
    }
  }

  /** The step of `InsertWithKeyOf` where `x` moves past the head of `s`. */
  lemma InsertPastHead(x: User, s: seq<User>, y: User, key: SortKey, dir: Direction)
    requires |s| > 0 && Precedes(s[0], x, key, dir)
    requires WithKeyOf(Insert(x, s[1..], key, dir), y, key)
             == (if SameKey(x, y, key) then [x] else []) + WithKeyOf(s[1..], y, key)
    ensures WithKeyOf(Insert(x, s, key, dir), y, key)
            == (if SameKey(x, y, key) then [x] else []) + WithKeyOf(s, y, key)
  {
    var hs := if SameKey(s[0], y, key) then [s[0]] else [];
    var xs := if SameKey(x, y, key) then [x] else [];
    PastHeadParts(x, s, y, key, dir);
    if SameKey(x, y, key) && SameKey(s[0], y, key) {
      TiesNeverPrecede(s[0], x, y, key, dir);
    }
    SwapWhenOneEmpty(hs, xs, WithKeyOf(s[1..], y, key));
  }

  /** Both the sorted-in sequence and the original start with the head's
      share of the key-mates of `y`. */
  lemma PastHeadParts(x: User, s: seq<User>, y: User, key: SortKey, dir: Direction)
    requires |s| > 0 && Precedes(s[0], x, key, dir)
    ensures WithKeyOf(Insert(x, s, key, dir), y, key)
            == (if SameKey(s[0], y, key) then [s[0]] else []) + WithKeyOf(Insert(x, s[1..], key, dir), y, key)
    ensures WithKeyOf(s, y, key)
            == (if SameKey(s[0], y, key) then [s[0]] else []) + WithKeyOf(s[1..], y, key)
  {
    InsertUnfold(x, s, y, key, dir);
    WithKeyOfCons(s[0], Insert(x, s[1..], key, dir), y, key);
    WithKeyOfSplit(s, y, key);
  }

  /** The key-mates of `y` in a non-empty sequence: the head's share, then
      the tail's. */
  lemma WithKeyOfSplit(s: seq<User>, y: User, key: SortKey)
    requires |s| > 0
    ensures WithKeyOf(s, y, key) == (if SameKey(s[0], y, key) then [s[0]] else []) + WithKeyOf(s[1..], y, key)
  {
    WithKeyOfCons(s[0], s[1..], y, key);
    assert s == [s[0]] + s[1..];
  }

  /** Two elements sharing a key never strictly precede one another. */
  lemma TiesNeverPrecede(a: User, b: User, y: User, key: SortKey, dir: Direction)
    requires SameKey(a, y, key) && SameKey(b, y, key)
    ensures !Precedes(a, b, key, dir)
  {
    assert SameKey(a, b, key);
    KeyLessIsStrictWeakOrder(a, b, b, key);
    KeyLessIsStrictWeakOrder(b, a, a, key);
  }

  lemma InsertUnfold(x: User, s: seq<User>, y: User, key: SortKey, dir: Direction)
    requires |s| > 0 && Precedes(s[0], x, key, dir)
    ensures WithKeyOf(Insert(x, s, key, dir), y, key) == WithKeyOf([s[0]] + Insert(x, s[1..], key, dir), y, key)
  {
    assert Insert(x, s, key, dir) == [s[0]] + Insert(x, s[1..], key, dir);
  }

  lemma WithKeyOfCons(h: User, t: seq<User>, y: User, key: SortKey)
    ensures WithKeyOf([h] + t, y, key) == (if SameKey(h, y, key) then [h] else []) + WithKeyOf(t, y, key)
  {
    FilterCons(HasKeyOf(y, key), h, t);
  }

  lemma SwapWhenOneEmpty(a: seq<User>, b: seq<User>, c: seq<User>)
    requires a == [] || b == []
    ensures a + (b + c) == b + (a + c)
  {
  }

  lemma {:induction false} SortIsStable(s: seq<User>, key: SortKey, dir: Direction)
    ensures Stable(s, SortUsers(s, key, dir), key)
    decreases |s|
  {
    if |s| > 0 {
      SortIsStable(s[1..], key, dir);
      forall y
        ensures WithKeyOf(SortUsers(s, key, dir), y, key) == WithKeyOf(s, y, key)
      {
        SortStep(s, y, key, dir);
      }
    }
  }

  lemma SortStep(s: seq<User>, y: User, key: SortKey, dir: Direction)
    requires |s| > 0
    requires WithKeyOf(SortUsers(s[1..], key, dir), y, key) == WithKeyOf(s[1..], y, key)
    ensures WithKeyOf(SortUsers(s, key, dir), y, key) == WithKeyOf(s, y, key)
  {
    assert SortUsers(s, key, dir) == Insert(s[0], SortUsers(s[1..], key, dir), key, dir);
    InsertWithKeyOf(s[0], SortUsers(s[1..], key, dir), y, key, dir);
    assert s == [s[0]] + s[1..];
    WithKeyOfCons(s[0], s[1..], y, key);
  }

  /** Two arrangements that are both sorted and agree on the order within
      every key are the same: a stable sort with this comparator has exactly
      one possible result. */
  lemma {:induction false} SortedStableIsUnique(a: seq<User>, b: seq<User>, key: SortKey, dir: Direction)
    requires Sorted(a, key, dir) && Sorted(b, key, dir) && Stable(a, b, key)
    ensures a == b
    decreases |a|
  {
    if |a| == 0 || |b| == 0 {
      NoneLeftOnEitherSide(a, b, key);
    } else {
      HeadsTie(a, b, key, dir);
      HeadsEqual(a, b, key);
      TailsStable(a, b, key);
      SortedSuffix(a, key, dir);
      SortedSuffix(b, key, dir);
      SortedStableIsUnique(a[1..], b[1..], key, dir);
      assert a == [a[0]] + a[1..] && b == [b[0]] + b[1..];
    }
  }

  lemma NoneLeftOnEitherSide(a: seq<User>, b: seq<User>, key: SortKey)
    requires Stable(a, b, key) && (|a| == 0 || |b| == 0)
    ensures a == b
  {
    if |b| > 0 {
      HeadInOwnKey(b, key);
    } else if |a| > 0 {
      HeadInOwnKey(a, key);
    }
  }

  lemma HeadsEqual(a: seq<User>, b: seq<User>, key: SortKey)
    requires |a| > 0 && |b| > 0 && Stable(a, b, key) && SameKey(a[0], b[0], key)
    ensures a[0] == b[0]
  {
    var x := a[0];
    WithKeyOfCons(x, a[1..], x, key);
    WithKeyOfCons(b[0], b[1..], x, key);
    assert a == [x] + a[1..] && b == [b[0]] + b[1..];
    assert WithKeyOf(a, x, key) == WithKeyOf(b, x, key);
    assert WithKeyOf(a, x, key)[0] == x && WithKeyOf(b, x, key)[0] == b[0];
  }

  lemma TailsStable(a: seq<User>, b: seq<User>, key: SortKey)
    requires |a| > 0 && |b| > 0 && Stable(a, b, key) && a[0] == b[0]
    ensures Stable(a[1..], b[1..], key)
  {
    var x := a[0];
    assert a == [x] + a[1..] && b == [x] + b[1..];
    forall y
      ensures WithKeyOf(b[1..], y, key) == WithKeyOf(a[1..], y, key)
    {
      WithKeyOfCons(x, a[1..], y, key);
      WithKeyOfCons(x, b[1..], y, key);
      var front := if SameKey(x, y, key) then [x] else [];
      assert WithKeyOf(a, y, key) == WithKeyOf(b, y, key);
      assert (front + WithKeyOf(a[1..], y, key))[|front|..] == WithKeyOf(a[1..], y, key);
      assert (front + WithKeyOf(b[1..], y, key))[|front|..] == WithKeyOf(b[1..], y, key);
    }
  }

  /** The first elements of two sorted arrangements with the same contents
      per key share a key. */
  lemma HeadsTie(a: seq<User>, b: seq<User>, key: SortKey, dir: Direction)
    requires |a| > 0 && |b| > 0
    requires Sorted(a, key, dir) && Sorted(b, key, dir) && Stable(a, b, key)
    ensures SameKey(a[0], b[0], key)
  {
    var x, z := a[0], b[0];
    HeadInOwnKey(b, key);
    assert WithKeyOf(a, z, key) == WithKeyOf(b, z, key);
    HeadNotAfter(a, z, key, dir);
    HeadInOwnKey(a, key);
    assert WithKeyOf(a, x, key) == WithKeyOf(b, x, key);
    HeadNotAfter(b, x, key, dir);
    NeitherPrecedesIsTie(x, z, key, dir);
  }

  lemma HeadInOwnKey(s: seq<User>, key: SortKey)
    requires |s| > 0
    ensures s[0] in WithKeyOf(s, s[0], key)
  {
    WithKeyOfCons(s[0], s[1..], s[0], key);
    assert s == [s[0]] + s[1..];
  }

  /** Nothing in a sorted arrangement strictly precedes its first element. */
  lemma HeadNotAfter(s: seq<User>, u: User, key: SortKey, dir: Direction)
    requires |s| > 0 && Sorted(s, key, dir)
    requires u in WithKeyOf(s, u, key)
    ensures !Precedes(u, s[0], key, dir)
  {
    FilterContents(HasKeyOf(u, key), s);
    var k :| 0 <= k < |s| && s[k] == u;
    if k == 0 {
      CompareIsConsistent(u, u, u, key, dir);
    }
  }

  lemma NeitherPrecedesIsTie(x: User, z: User, key: SortKey, dir: Direction)
    requires !Precedes(x, z, key, dir) && !Precedes(z, x, key, dir)
    ensures SameKey(x, z, key)
  {
    CompareIsConsistent(x, z, x, key, dir);
  }

  lemma SortedSuffix(s: seq<User>, key: SortKey, dir: Direction)
    requires |s| > 0 && Sorted(s, key, dir)
    ensures Sorted(s[1..], key, dir)
  {
    forall i, j | 0 <= i < j < |s[1..]|
      ensures !Precedes(s[1..][j], s[1..][i], key, dir)
    {
      assert s[1..][j] == s[j + 1] && s[1..][i] == s[i + 1];
    }
  }

  // ----- the pipeline -----

  /** The rows the table shows: search, then status filter, then, when a
      header has been clicked, a stable sort on that column. */
  function View(users: seq<User>, query: string, status: StatusFilter, config: SortConfig): seq<User>
  {
    var filtered := ApplyStatus(Search(users, query), status);
    match config
    case Unsorted => filtered
    case SortBy(key, dir) => SortUsers(filtered, key, dir)
  }

  /** The search is case-insensitive: two queries that agree letter by
      letter up to case show the same view. */
  lemma ViewIgnoresQueryCase(users: seq<User>, q: string, q2: string, status: StatusFilter, config: SortConfig)
    requires |q| == |q2| && forall i :: 0 <= i < |q| ==> SameLetter(q[i], q2[i])
    ensures View(users, q, status, config) == View(users, q2, status, config)
  {
    LowerEqualIffSameLetters(q, q2);
    assert forall u :: Matcher(q)(u) == Matcher(q2)(u);
    FilterSamePredicate(Matcher(q), Matcher(q2), users);
    assert Search(users, q) == Search(users, q2);
  }

  /** With nothing typed, "all" selected and no header clicked, the table
      shows the list as stored. */
  lemma ViewOfUntouchedControls(users: seq<User>)
    ensures View(users, "", All, Unsorted) == users
  {
  }

  /** The view is a permutation of the selected users, and without a sort it
      is exactly them in their stored order. */
  lemma ViewIsPermutedSelection(users: seq<User>, query: string, status: StatusFilter, config: SortConfig)
    ensures multiset(View(users, query, status, config)) == multiset(Filter(Selector(query, status), users))
    ensures config == Unsorted ==> View(users, query, status, config) == Filter(Selector(query, status), users)
  {
    SearchThenStatusIsSelection(users, query, status);
  }

  /** A user is shown exactly when it is stored, matches the query and
      passes the status filter. */
  lemma ViewMembership(users: seq<User>, query: string, status: StatusFilter, config: SortConfig, u: User)
    ensures u in View(users, query, status, config) <==> u in users && Selected(u, query, status)
  {
    ViewIsPermutedSelection(users, query, status, config);
    FilterContents(Selector(query, status), users);
    var v := View(users, query, status, config);
    assert u in v <==> u in multiset(v);
  }

  /** After a header click the rows are ordered on that column: keys never
      decrease going down when ascending, never increase when descending. */
  lemma ViewIsOrdered(users: seq<User>, query: string, status: StatusFilter, key: SortKey, dir: Direction)
    ensures var v := View(users, query, status, SortBy(key, dir));
            forall i, j :: 0 <= i < j < |v| ==>
              if dir == Ascending then !KeyLess(v[j], v[i], key) else !KeyLess(v[i], v[j], key)
  {
    var v := View(users, query, status, SortBy(key, dir));
    SortIsSorted(ApplyStatus(Search(users, query), status), key, dir);
    forall i, j | 0 <= i < j < |v|
      ensures if dir == Ascending then !KeyLess(v[j], v[i], key) else !KeyLess(v[i], v[j], key)
    {
      assert !Precedes(v[j], v[i], key, dir);
      CompareIsConsistent(v[i], v[j], v[i], key, dir);
    }
  }

  /** After a header click, rows with equal values in that column keep their
      stored order, in either direction. */
  lemma ViewIsStable(users: seq<User>, query: string, status: StatusFilter, key: SortKey, dir: Direction)
    ensures Stable(Filter(Selector(query, status), users), View(users, query, status, SortBy(key, dir)), key)
  {
    SearchThenStatusIsSelection(users, query, status);
    SortIsStable(ApplyStatus(Search(users, query), status), key, dir);
  }

  /** The rows after a header click are the one arrangement of the selected
      users that is ordered on that column and keeps the stored order among
      ties: what any stable sort with the table's comparator returns. */
  lemma ViewIsTheStableSort(users: seq<User>, query: string, status: StatusFilter, key: SortKey, dir: Direction, rows: seq<User>)
    requires Sorted(rows, key, dir) && Stable(Filter(Selector(query, status), users), rows, key)
    ensures rows == View(users, query, status, SortBy(key, dir))
  {
    var selected := Filter(Selector(query, status), users);
    var v := View(users, query, status, SortBy(key, dir));
    SearchThenStatusIsSelection(users, query, status);
    SortIsSorted(selected, key, dir);
    SortIsStable(selected, key, dir);
    assert Stable(v, rows, key);
    SortedStableIsUnique(v, rows, key, dir);
  }
}

=== FILE: users.dfy ===
/** The user list of the user table and the effect of its two mutating
    handlers, save (edit or create) and delete, as functions from the old list
    to the new one. Persistence is left to the caller; the fresh id that the
    table draws from the clock is a parameter. */
module Users {
  import opened Basics

  /** What the user form hands to `onSave`. */
  datatype UserFields = UserFields(name: string, email: string, role: string, active: bool)

  /** A stored user; `role` names a role by value and is not kept in step with
      the role list. */
  datatype User = User(id: int, name: string, email: string, role: string, active: bool)

  /** `{ ...fields, id }` */
  function WithId(f: UserFields, id: int): (u: User)
    ensures u.id == id
    ensures UserFields(u.name, u.email, u.role, u.active) == f
  {
    User(id, f.name, f.email, f.role, f.active)
  }

  function UserIds(users: seq<User>): (ids: seq<int>)
    ensures |ids| == |users|
  {
    MapSeq((u: User) => u.id, users)
  }

  ghost predicate UniqueUserIds(users: seq<User>)
  {
    NoDuplicates(UserIds(users))
  }

  /** Saving an edit: every entry whose id is the edited one takes the
      submitted fields and keeps its id; the others are untouched. */
  function EditUser(users: seq<User>, id: int, f: UserFields): (r: seq<User>)
    ensures |r| == |users|
    ensures UserIds(r) == UserIds(users)
    ensures forall i :: 0 <= i < |users| && users[i].id == id ==>
              r[i].id == id && r[i].name == f.name && r[i].email == f.email
              && r[i].role == f.role && r[i].active == f.active
    ensures forall i :: 0 <= i < |users| && users[i].id != id ==> r[i] == users[i]
  {
    MapSeq((u: User) => if u.id == id then WithId(f, u.id) else u, users)
  }

  /** Editing an id no user carries leaves the list as it is. */
  lemma EditAbsentIdKeepsList(users: seq<User>, id: int, f: UserFields)
    requires id !in UserIds(users)
    ensures EditUser(users, id, f) == users
  {
    forall i | 0 <= i < |users|
      ensures EditUser(users, id, f)[i] == users[i]
    {
      assert UserIds(users)[i] == users[i].id;
    }
  }

  /** Saving a new user: appended at the end under the supplied id. */
  function CreateUser(users: seq<User>, f: UserFields, freshId: int): (r: seq<User>)
    ensures |r| == |users| + 1
    ensures r[..|users|] == users
    ensures r[|users|] == WithId(f, freshId)
  {
    users + [WithId(f, freshId)]
  }

  /** Deleting: every user with the id goes, the rest stay in order. */
  function DeleteUser(users: seq<User>, id: int): (r: seq<User>)
    ensures forall u :: u in r ==> u.id != id
    ensures forall u :: multiset(r)[u] == if u.id == id then 0 else multiset(users)[u]
    ensures IsSubsequence(r, users)
  {
    var keep := (u: User) => u.id != id;
    FilterContents(keep, users);
    Filter(keep, users)
  }

  /** Deleting an id no user carries leaves the list as it is. */
  lemma DeleteAbsentIdKeepsList(users: seq<User>, id: int)
    requires id !in UserIds(users)
    ensures DeleteUser(users, id) == users
  {
    forall u | u in users ensures u.id != id {
      var i :| 0 <= i < |users| && users[i] == u;
      assert UserIds(users)[i] == u.id;
    }
    FilterKeepsAll((u: User) => u.id != id, users);
  }

  /** The table's save handler: an edit when a user is being edited, a
      creation otherwise. */
  function SaveUser(users: seq<User>, editing: Option<int>, f: UserFields, freshId: int): (r: seq<User>)
    ensures editing.Some? ==> |r| == |users| && UserIds(r) == UserIds(users)
    ensures editing.Some? ==>
              forall i :: 0 <= i < |users| ==>
                r[i] == if users[i].id == editing.value then WithId(f, users[i].id) else users[i]
    ensures editing.None? ==> |r| == |users| + 1 && r[..|users|] == users && r[|users|] == WithId(f, freshId)
  {
    match editing
    case Some(id) => EditUser(users, id, f)
    case None => CreateUser(users, f, freshId)
  }

  /** A fresh id keeps the ids unique, and the new user is the only one
      carrying it. */
  lemma CreateKeepsIdsUnique(users: seq<User>, f: UserFields, freshId: int)
    requires UniqueUserIds(users) && freshId !in UserIds(users)
    ensures UniqueUserIds(CreateUser(users, f, freshId))
    ensures forall i :: 0 <= i < |users| + 1 && CreateUser(users, f, freshId)[i].id == freshId ==> i == |users|
  {
    var r := CreateUser(users, f, freshId);
    assert UserIds(r) == UserIds(users) + [freshId];
    forall i | 0 <= i < |users|
      ensures r[i].id != freshId
    {
      assert UserIds(users)[i] == r[i].id;
    }
  }

  lemma DeleteKeepsIdsUnique(users: seq<User>, id: int)
    requires UniqueUserIds(users)
    ensures UniqueUserIds(DeleteUser(users, id))
  {
    MapOfFilterIsSubMultiset((u: User) => u.id, (u: User) => u.id != id, users);
  }

  lemma SaveKeepsIdsUnique(users: seq<User>, editing: Option<int>, f: UserFields, freshId: int)
    requires UniqueUserIds(users) && freshId !in UserIds(users)
    ensures UniqueUserIds(SaveUser(users, editing, f, freshId))
  {
    if editing.None? {
      CreateKeepsIdsUnique(users, f, freshId);
    }
  }

  /** Deleting the same id twice is deleting it once. */
  lemma DeleteIdempotent(users: seq<User>, id: int)
    ensures DeleteUser(DeleteUser(users, id), id) == DeleteUser(users, id)
  {
    var r := DeleteUser(users, id);
    forall i | 0 <= i < |r| ensures UserIds(r)[i] != id {
      assert r[i] in r;
    }
    DeleteAbsentIdKeepsList(r, id);
  }
}
